=== FILE: README.md ===
# audio_transcriptions: decision logic in Dafny

`script.py` is a small batch tool with three stages. It converts `.m4a`/`.mp4` recordings to
`.mp3`. It cuts `.mp3` files that are too large for the speech-to-text API into two halves.
It then sends each `.mp3` to a transcription endpoint and writes a `.txt` beside it. Each stage
walks one directory. This project models the decisions those stages make, as pure functions
over an abstract directory, and proves what they guarantee.

- `paths.dfy` (module `Paths`) covers the Python string and path rules the script relies on
  (POSIX): `str.endswith`, `str.rfind`, `str.replace`, `os.path.splitext` and two-argument
  `os.path.join`.
- `splitter.dfy` (module `Splitter`) covers `cut_large_mp3_files` and
  `process_and_cleanup_mp3_files`.
  - A directory is a map from file name to an `Entry`: the byte size and the length in
    milliseconds of the decoded audio.
  - A run walks a listing taken once at the start.
  - Each listed `.mp3` file whose current size is over the limit is cut at `len // 2`.
  - The two halves are written as `<base> 1.mp3` and `<base> 2.mp3`.
  - The cleanup variant then deletes the original.
  - The limit is 25 MiB in the keeping variant and 24 MiB in the deleting one.
- `transcriber.dfy` (module `Transcriber`) covers transcription.
  - The write decision of `transcribe_audio_to_text`: a file is written only on status 200
    with a non-empty `text` field, to `splitext(path)[0] + ".txt"`.
  - The skip-and-retry loop of `transcribe_all_mp3_in_directory`.
  - Each call is reduced to its outcome: a normal return with a response, an `HTTPError` with
    a status, or any other exception. The model takes these outcomes as input.
  - Calls and sleeps are counted.
- `converter.dfy` (module `Converter`) covers which files `convert_media_to_mp3` converts, with
  which format hint, and under which target name.
- `wrappers.dfy` (module `Wrappers`) holds the `Option` type.

Paths inside the directory are written relative to it. `Transcriber.TranscriptBesideAudio` shows
that joining the directory first gives the same transcript path. The set `present` of the
transcriber stands for `os.path.exists`.

Inputs the model takes as parameters:
- The order of `os.listdir`: any sequence of distinct names.
- The byte size the MP3 encoder gives an exported half: the function `encode` of the half's
  length. The model therefore makes a half's size depend on its length only, the same for
  every file.
- The outcome of each transcription call: `next(name, k)` for the call made while
  `retries == k`.

Where the comments and the code disagree, the model follows the code:
- The comment at script.py:40-41 says the halves come back "with the original name 1 and 2".
  The code builds the base name as `filename.replace('.mp3', '')`, which removes every `.mp3`
  in the name, not just the extension. `talk.mp3.mp3` and `talk.mp3` therefore have the same
  halves (`Splitter.EveryOccurrenceRemoved`).
- The docstring of `process_and_cleanup_mp3_files` (script.py:74) says 25 MB, but its test
  at script.py:84 is `> 24`. The model uses 24 MiB.
- The docstring at script.py:153 calls `max_retries` the maximum number of retries. The loop
  at script.py:166-175 counts calls: with only 503s and `max_retries = 3` it makes three calls,
  so two retries, and sleeps after the third call although no call follows
  (`Transcriber.RetryLoopExhausts`).

## Model

| member | source | states |
|---|---|---|
| Paths.SplitExt | script.py:158 | root followed by extension is the path again; the extension is empty or a dot followed by no dot or slash |
| Paths.SplitExtOfExtension | script.py:32 | `stem + ext` splits back into `stem` and `ext` exactly when the stem is not made of dots only; otherwise the extension is empty |
| Paths.SplitExtUnderDirectory | script.py:157-158 | under a directory prefix, `splitext` of a plain name keeps the prefix in the root and the name's own extension |
| Paths.Join | script.py:157 | the joined path ends with the name, and starts with the directory unless the name is absolute |
| Paths.RemoveLength | script.py:63 | removing `.mp3` shortens a name by a whole number of occurrences and changes nothing else in length |
| Paths.ReplaceOnlyTrailing | script.py:63 | when the extension is the only occurrence of the pattern, `replace` is a suffix substitution |
| Splitter.SizeTestExact | script.py:52-54 | `size / (1024*1024) > limit` holds exactly when the byte count exceeds `limit * 1048576`, so a file of exactly the limit is not cut |
| Splitter.HalfName | script.py:63-65 | either half's name ends in `.mp3` and is never the original's name, so an export never overwrites the file being cut |
| Splitter.HalfNamesDisjoint | script.py:93-95 | a first half is never a second half; two files share a half name exactly when their bases are equal |
| Splitter.HalfNamesOfPlainName | script.py:63-65 | for a name whose only `.mp3` is its extension, the halves are `stem 1.mp3` and `stem 2.mp3` |
| Splitter.EveryOccurrenceRemoved | script.py:63 | the base removes every `.mp3`, so for a stem without dots `stem.mp3.mp3` and `stem.mp3` have the same first half, `stem 1.mp3` |
| Splitter.CutPoint | script.py:58 | the cut point leaves a second part as long as the first or one millisecond longer |
| Splitter.FirstHalf | script.py:59 | the first exported half is as long as the cut point |
| Splitter.SecondHalf | script.py:60 | the two halves' lengths add up to the original length, the first no longer than the second |
| Splitter.SplitFile | script.py:50-98 | one turn: a file not over the limit leaves the directory as it is; otherwise both halves are written with their entries, the original is kept or deleted by variant, and every other name is untouched |
| Splitter.SplitPass | script.py:49-98 | a run over a listing: the keeping variant removes nothing; unlisted names are never removed; every new name is a half name of a listed file |
| Splitter.CutLargeMp3Files | script.py:42-67 | `cut_large_mp3_files` never removes a file and only adds half names of listed files |
| Splitter.ProcessAndCleanupMp3Files | script.py:72-100 | `process_and_cleanup_mp3_files` only adds half names of listed files |
| Splitter.PassLeavesAlone | script.py:49-54 | a file that is not a half name of a listed file, and is not over the limit at its turn, is neither removed nor changed |
| Splitter.NonMp3Untouched | script.py:80 | a file not ending in `.mp3` comes out of either variant unchanged |
| Splitter.SplitPassExact | script.py:79-98 | when the half names of the files that are cut neither exist at the start nor coincide, each such file gets both halves, partitioning its audio, and is kept or deleted by variant; every other listed file stays as it was |
| Splitter.DeletesExactlyTheCutFiles | script.py:94-98 | the cleanup variant deletes a file exactly when it cut it; the keeping variant keeps every file |
| Splitter.OversizedHalfCutNextRun | script.py:49-54 | a first half exported over the limit holds the exported entry at the end of the run and is still over the limit, so a later run that reaches it with that entry cuts it |
| Splitter.ListedHalfRecreated | script.py:79-98 | nothing guards an export against existing names: with `x 1.mp3` listed before `x.mp3`, both over the limit, the cleanup variant cuts and deletes `x 1.mp3` and then writes the first half of `x.mp3` under that name |
| Transcriber.SavedText | script.py:129-138 | text is saved exactly for a 200 response whose `text` field is present and non-empty |
| Transcriber.TranscriptPath | script.py:158 | the transcript path ends in `.txt` and is never the `.mp3` path itself |
| Transcriber.TranscriptOfMp3Name | script.py:158 | `stem.mp3` has transcript `stem.txt`, except that a stem of dots only gets `stem.mp3.txt` |
| Transcriber.TranscriptBesideAudio | script.py:157-158 | the transcript of a joined path is the directory joined with the transcript of the file name |
| Transcriber.TranscribeAudioToText | script.py:129-140 | a file is written exactly when text is saved, holding that non-empty text, at `save_path` if set and non-empty and at the transcript path otherwise |
| Transcriber.LoopWritesTranscriptPath | script.py:169 | within the loop the text lands at the transcript path, never on the audio file |
| Transcriber.RetryLoop | script.py:166-181 | at most `max_retries - retries` calls; every call before the last was a 503 `HTTPError` followed by one sleep; the loop breaks on the first other outcome or stops after `max_retries` calls |
| Transcriber.RetryLoopBreaksAt | script.py:166-181 | when the first outcome that is not a 503 `HTTPError` comes at call `j < max_retries`, the loop makes `j + 1` calls and `j` sleeps and breaks on it |
| Transcriber.RetryLoopExhausts | script.py:166-175 | when every call up to `max_retries` is a 503 `HTTPError`, the loop makes `max_retries` calls, sleeps after each, and ends without a breaking outcome |
| Transcriber.RetryLoopFromStart | script.py:166-167 | from `retries = 0`: at most `max_retries` calls, none when `max_retries <= 0`, and one sleep per call when retries run out |
| Transcriber.LoopText | script.py:169-170 | a loop that broke on a normal return leaves exactly the text that response saves; any other end leaves none |
| Transcriber.TranscribeFile | script.py:156-181 | a non-`.mp3` file, or one whose transcript exists, costs nothing; otherwise calls and sleeps are those of the loop and the transcript is written exactly when the loop leaves text |
| Transcriber.TranscriptOfFirstAnswer | script.py:166-175 | a file whose calls give 503s until one returns a 200 with text, within `max_retries` calls, gets that text as its transcript, with one sleep per 503 |
| Transcriber.TranscribeAll | script.py:155-181 | a run never removes a file, never lowers the counters, adds to the directory only transcripts of listed `.mp3` files, and changes no other written transcript |
| Transcriber.NoCallsWhenAllTranscribed | script.py:158-163 | re-running where every listed `.mp3` has its transcript makes no call and changes nothing |
| Transcriber.NoCallsWithoutRetries | script.py:166-167 | with `max_retries <= 0` a run makes no call and writes nothing |
| Transcriber.CallsBounded | script.py:166-175 | calls and sleeps of a run are at most `max_retries` per listed file |
| Transcriber.WrittenArePresent | script.py:133-135 | every transcript written is present afterwards, so the next run skips its file |
| Transcriber.OutcomeAsWritten | script.py:124-140 | as written, a call never raises `HTTPError`; it returns normally for every answered call except a 200 whose body is not a JSON object |
| Transcriber.AsWrittenNeverRetries | script.py:171-175 | as written, the loop makes at most one call and never sleeps |
| Transcriber.AsWrittenGivesUpOn503 | script.py:140 | as written, a 503 response gives one call, no sleep and no transcript, however many retries are allowed |
| Transcriber.OutcomeRaising | script.py:171-172 | with `raise_for_status`, a status from 400 to 599 raises `HTTPError` with that status |
| Transcriber.RaisingRetries503 | script.py:171-175 | with `raise_for_status`, every call before the last was a 503 and the loop stops on the first other answer or after `max_retries` calls |
| Transcriber.RaisingRecoversAfter503 | script.py:171-175 | with `raise_for_status`, a 503 then a 200 with text gives two calls, one sleep and that text written |
| Converter.Mp3Name | script.py:32 | the converted name ends in `.mp3` and starts like the source name |
| Converter.ConversionOf | script.py:30-36 | a name is converted exactly when it ends in `.m4a` or `.mp4`; the format is `mp4` exactly for `.mp4`; the target is the `.mp3` name in the `mp3` subdirectory |
| Converter.TargetKeepsStem | script.py:32-33 | `stem.m4a` and `stem.mp4` become `mp3/stem.mp3` |
| Converter.FilesToConvert | script.py:29-30 | the names the loop converts are listed names ending in `.m4a` or `.mp4`, and every such listed name is converted |

## Findings

| source | as written | input that shows it | evidently intended | confidence | as-written member | corrected member |
|---|---|---|---|---|---|---|
| script.py:124-140, 171-175 | `transcribe_audio_to_text` never calls `raise_for_status`, so no `HTTPError` reaches the loop; a 503 response is printed and the loop breaks | a first response with status 503, `max_retries = 3`: one call, no sleep, no transcript | a 503 response is retried after `retry_delay`, up to `max_retries` calls | high; not executed | Transcriber.AsWrittenGivesUpOn503 | Transcriber.RaisingRetries503 |

The loop itself (`Transcriber.RetryLoop`, `TranscribeFile`, `TranscribeAll`) takes call outcomes
as input, so it serves both readings:
- `Transcriber.OutcomeAsWritten` maps an exchange to its outcome as the code is written.
  `Transcriber.AsWrittenNeverRetries` proves that the retry branch is then unreachable.
- `Transcriber.OutcomeRaising` is the corrected mapping.
  `Transcriber.RaisingRetries503` proves that a 503 is then retried while calls remain.

## Left out

- Audio decoding, slicing and export (pydub): audio is only a length in milliseconds.
  - The byte size of an exported half is the parameter `encode`.
  - A half is taken to be exactly as long as its slice; MP3 frame padding is not modelled.
  - Decoding failures, which abort the whole function in the script, are not modelled.
- The HTTP request (endpoint, headers, query parameters, multipart body, opening and closing the
  file): network I/O. A call is reduced to an `Exchange` or a `CallOutcome`.
- JSON values of `text` other than a string: not modelled. Nor is a file left empty when
  writing a non-string fails.
- `load_dotenv` and the three environment values: configuration, not decisions.
- `time.sleep` and `print`: sleeps are counted and printing is dropped.
- `os.makedirs` of the `mp3` subdirectory: I/O.
- Filesystem errors (a vanished file, a directory named `*.mp3`, permissions): not modelled. The
  order of `os.listdir` is left open.
- The size test uses floating point in Python; the model divides exactly.
  - Division by 1048576 is exact in binary floating point.
  - 25 * 1048576 and 24 * 1048576 are exactly representable.
  - Rounding a very large size therefore cannot change the comparison.
- `Paths.Replace` does not model an empty pattern, which the script never uses.
- `Paths.Join` models only two-argument POSIX `os.path.join`.
- Converter.ConversionOf: the target is the path relative to the directory, `mp3/<name>`. It is
  stated for source names not starting with a slash, which is every name `os.listdir` returns.
- Converter.FilesToConvert: returns the names the loop converts. What each conversion is comes
  from `Converter.ConversionOf` applied to that name.
- Splitter.SplitPassExact: states each file's outcome only for runs where no half name of a
  file that is cut exists at the start, and no two such files share a base. Otherwise an
  export can replace an existing file, or a file cut and deleted earlier in the run
  (`Splitter.ListedHalfRecreated`), and the result depends on the listing order. For that case
  only the frame properties are proved: `Splitter.SplitPass`, `Splitter.PassLeavesAlone` and
  `Splitter.NonMp3Untouched`.
- Splitter.DeletesExactlyTheCutFiles: holds under the same condition as
  `Splitter.SplitPassExact`. Without it, a file deleted after its cut can be re-created as
  another file's half, so it is present at the end although it was cut.
- Splitter.OversizedHalfCutNextRun: holds under the same condition as
  `Splitter.SplitPassExact`. Without it, the first half can be replaced later in the run by
  another file's half, or cut in the same run when it was already listed.

=== FILE: converter.dfy ===
/** Which files `convert_media_to_mp3` (script.py) converts and where it puts them. The
    decoding and encoding themselves belong to pydub and are not modelled; a conversion is
    described by its source, the container format pydub is told, and its target path relative
    to the directory. */
module Converter {
  import opened Paths
  import opened Wrappers

  datatype Conversion = Conversion(source: string, format: string, target: string)

  /** The loop converts names ending in `.m4a` or `.mp4`. */
  predicate Convertible(name: string)
  {
    EndsWith(name, ".m4a") || EndsWith(name, ".mp4")
  }

  /** `os.path.splitext(filename)[0] + '.mp3'` */
  function Mp3Name(name: string): (r: string)
    ensures IsMp3(r)
    ensures name != [] ==> r[0] == name[0]
  {
    var r := SplitExt(name).0 + ".mp3";
    assert r[|r| - 4..] == ".mp3";
    r
  }

  /** The conversion of one listed name, if the loop converts it: the format is `mp4` for an
      `.mp4` name and `m4a` otherwise, and the target is the `.mp3` name inside the `mp3`
      subdirectory. */
  function ConversionOf(name: string): (c: Option<Conversion>)
    ensures c.Some? <==> Convertible(name)
    ensures c.Some? ==> c.value.source == name
    ensures c.Some? ==> (c.value.format == "mp4" <==> EndsWith(name, ".mp4"))
    ensures c.Some? ==> c.value.format == "mp4" || c.value.format == "m4a"
    ensures c.Some? && !StartsWith(name, "/") ==> c.value.target == "mp3/" + Mp3Name(name)
  {
    if !Convertible(name) then None
    else
      var format := if EndsWith(name, ".mp4") then "mp4" else "m4a";
      var file := Mp3Name(name);
      assert !StartsWith(name, "/") ==> !StartsWith(file, "/") by {
        assert name != [] && file[..1][0] == file[0] == name[0] == name[..1][0];
      }
      Some(Conversion(name, format, Join("mp3", file)))
  }

  /** A name with one of the two extensions and a stem that is not only dots keeps its stem:
      `talk.m4a` becomes `mp3/talk.mp3`. */
  lemma TargetKeepsStem(stem: string, ext: string)
    requires ext == ".m4a" || ext == ".mp4"
    requires Lacks(stem, '/') && !AllDots(stem)
    ensures ConversionOf(stem + ext).Some?
    ensures ConversionOf(stem + ext).value.target == "mp3/" + stem + ".mp3"
  {
    Mp3NameOfStem(stem, ext);
    SelectedByExtension(stem, ext);
    assert "mp3/" + (stem + ".mp3") == "mp3/" + stem + ".mp3";
  }

  lemma Mp3NameOfStem(stem: string, ext: string)
    requires ext == ".m4a" || ext == ".mp4"
    requires Lacks(stem, '/') && !AllDots(stem)
    ensures Mp3Name(stem + ext) == stem + ".mp3"
  {
    assert ext[1..] == ext[1..4];
    SplitExtOfExtension(stem, ext);
  }

  lemma SelectedByExtension(stem: string, ext: string)
    requires ext == ".m4a" || ext == ".mp4"
    requires Lacks(stem, '/') && !AllDots(stem)
    ensures Convertible(stem + ext) && !StartsWith(stem + ext, "/")
  {
    var name := stem + ext;
    assert name[|name| - 4..] == ext;
    assert stem != [] && name[0] == stem[0] != '/';
    assert name[..1][0] == name[0];
  }

  /** The loop of `convert_media_to_mp3` over its listing: the names it converts, each
      converted as `ConversionOf` says. */
  method FilesToConvert(listing: seq<string>) returns (sources: seq<string>)
    ensures |sources| <= |listing|
    ensures forall j :: 0 <= j < |sources| ==> sources[j] in listing && Convertible(sources[j])
    ensures forall n :: n in listing && Convertible(n) ==> n in sources
  {
    sources := [];
    var i := 0;
    while i < |listing|
      invariant 0 <= i <= |listing|
      invariant |sources| <= i
      invariant forall j :: 0 <= j < |sources| ==> sources[j] in listing && Convertible(sources[j])
      invariant forall k :: 0 <= k < i && Convertible(listing[k]) ==> listing[k] in sources
    {
      if Convertible(listing[i]) {
        sources := sources + [listing[i]];
      }
      i := i + 1;
    }
  }
}

=== FILE: paths.dfy ===
/** The string and path rules of Python that the script relies on, on POSIX:
    `str.endswith`, `str.rfind` of one character, `str.replace`, `os.path.splitext`
    and two-argument `os.path.join`. A name is a `string`; a directory listing is a
    sequence of such names. */
module Paths {

  /** `s.endswith(suffix)` */
  predicate EndsWith(s: string, suffix: string)
  {
    |suffix| <= |s| && s[|s| - |suffix|..] == suffix
  }

  /** `name.endswith('.mp3')`: the test every stage uses to pick audio files. */
  predicate IsMp3(name: string)
  {
    EndsWith(name, ".mp3")
  }

  /** `s.startswith(prefix)` */
  predicate StartsWith(s: string, prefix: string)
  {
    |prefix| <= |s| && s[..|prefix|] == prefix
  }

  /** `pat` occurs in `s` starting at index `i`. */
  predicate OccursAt(s: string, pat: string, i: int)
  {
    0 <= i && i + |pat| <= |s| && s[i..i + |pat|] == pat
  }

  /** No character of `s` is `c`. */
  predicate Lacks(s: string, c: char)
  {
    forall k :: 0 <= k < |s| ==> s[k] != c
  }

  /** Every character of `s` is a dot (vacuously true of the empty string). */
  predicate AllDots(s: string)
  {
    forall k :: 0 <= k < |s| ==> s[k] == '.'
  }

  /** The names of a listing are pairwise distinct, as those of `os.listdir` are. */
  predicate Distinct(names: seq<string>)
  {
    forall i, j :: 0 <= i < j < |names| ==> names[i] != names[j]
  }

  /** `s.rfind(c)`: the index of the last `c` in `s`, or -1 when there is none. */
  function LastIndexOf(s: string, c: char): (r: int)
    ensures -1 <= r < |s|
    ensures r >= 0 ==> s[r] == c
    ensures forall j :: r < j < |s| ==> s[j] != c
  {
    if s == [] then -1
    else if s[|s| - 1] == c then |s| - 1
    else LastIndexOf(s[..|s| - 1], c)
  }

  /** `LastIndexOf` is pinned down by its contract: any index with those properties is it. */
  lemma LastIndexOfUnique(s: string, c: char, x: int)
    requires -1 <= x < |s|
    requires x >= 0 ==> s[x] == c
    requires forall j :: x < j < |s| ==> s[j] != c
    ensures LastIndexOf(s, c) == x
  {
  }

  /** The last `c` of `a + b` lies in `b` when `b` has one, and otherwise is the last one of `a`. */
  lemma LastIndexOfAppend(a: string, b: string, c: char)
    ensures LastIndexOf(a + b, c) ==
              if LastIndexOf(b, c) >= 0 then |a| + LastIndexOf(b, c) else LastIndexOf(a, c)
  {
    var s := a + b;
    var rb := LastIndexOf(b, c);
    var ra := LastIndexOf(a, c);
    if rb >= 0 {
      forall j | |a| + rb < j < |s| ensures s[j] != c {
        assert s[j] == b[j - |a|];
      }
      LastIndexOfUnique(s, c, |a| + rb);
    } else {
      forall j | ra < j < |s| ensures s[j] != c {
        if j < |a| {
          assert s[j] == a[j];
        } else {
          assert s[j] == b[j - |a|];
        }
      }
      if ra >= 0 {
        assert s[ra] == a[ra];
      }
      LastIndexOfUnique(s, c, ra);
    }
  }

  /** `os.path.splitext(p)` on POSIX, as the pair (root, extension). The extension starts at
      the last dot, provided that dot lies in the last path component and that component has
      a character other than a dot before it; otherwise the extension is empty. */
  function SplitExt(p: string): (r: (string, string))
    ensures r.0 + r.1 == p
    ensures r.1 == [] || (r.1[0] == '.' && Lacks(r.1, '/') && Lacks(r.1[1..], '.'))
  {
    var sep := LastIndexOf(p, '/');
    var dot := LastIndexOf(p, '.');
    if dot > sep && !AllDots(p[sep + 1..dot]) then
      ExtensionShape(p, sep, dot);
      (p[..dot], p[dot..])
    else
      (p, [])
  }

  /** The text from the last dot on, when that dot follows the last slash. */
  lemma ExtensionShape(p: string, sep: int, dot: int)
    requires sep == LastIndexOf(p, '/') && dot == LastIndexOf(p, '.') && dot > sep
    ensures p[..dot] + p[dot..] == p
    ensures p[dot] == '.' && Lacks(p[dot..], '/') && Lacks(p[dot..][1..], '.')
  {
    var e := p[dot..];
    forall k | 0 <= k < |e| ensures e[k] != '/' {
      assert e[k] == p[dot + k];
    }
    forall k | 0 <= k < |e[1..]| ensures e[1..][k] != '.' {
      assert e[1..][k] == p[dot + 1 + k];
    }
  }

  /** Splitting `stem + ext` gives back `stem` and `ext` exactly when `ext` is a dot followed
      by no dot or slash, and `stem`, a single path component, is not made of dots only. */
  lemma SplitExtOfExtension(stem: string, ext: string)
    requires |ext| >= 1 && ext[0] == '.' && Lacks(ext, '/') && Lacks(ext[1..], '.')
    requires Lacks(stem, '/')
    ensures !AllDots(stem) ==> SplitExt(stem + ext) == (stem, ext)
    ensures AllDots(stem) ==> SplitExt(stem + ext) == (stem + ext, [])
  {
    var p := stem + ext;
    LastIndexOfAppend(stem, ext, '/');
    LastIndexOfAppend(stem, ext, '.');
    assert LastIndexOf(ext, '.') == 0 by {
      assert ext[0] == '.';
      forall j | 0 < j < |ext| ensures ext[j] != '.' {
        assert ext[j] == ext[1..][j - 1];
      }
    }
    assert LastIndexOf(p, '/') == -1;
    assert LastIndexOf(p, '.') == |stem|;
    assert p[0..|stem|] == stem;
    assert p[..|stem|] == stem;
    assert p[|stem|..] == ext;
  }

  /** Two-argument `os.path.join(a, b)` on POSIX. */
  function Join(a: string, b: string): (r: string)
    ensures EndsWith(r, b)
    ensures !StartsWith(b, "/") ==> StartsWith(r, a)
  {
    if StartsWith(b, "/") then b
    else if a == [] || EndsWith(a, "/") then a + b
    else a + "/" + b
  }

  /** Under a directory prefix (empty or ending in a slash), `splitext` of a plain name acts on
      the name alone: the prefix stays in the root and the extension is the name's own. */
  lemma SplitExtUnderDirectory(prefix: string, name: string)
    requires prefix == [] || prefix[|prefix| - 1] == '/'
    requires Lacks(name, '/')
    ensures SplitExt(prefix + name) == (prefix + SplitExt(name).0, SplitExt(name).1)
  {
    var p := prefix + name;
    LastIndexOfAppend(prefix, name, '/');
    LastIndexOfAppend(prefix, name, '.');
    LastIndexOfUnique(name, '/', -1);
    var ndot := LastIndexOf(name, '.');
    if prefix != [] {
      LastIndexOfUnique(prefix, '/', |prefix| - 1);
    }
    assert LastIndexOf(p, '/') == |prefix| - 1;
    if ndot >= 0 {
      DotInName(prefix, name, ndot);
    } else {
      assert LastIndexOf(p, '.') <= |prefix| - 1;
    }
  }

  /** The case of `SplitExtUnderDirectory` where the name has a dot. */
  lemma DotInName(prefix: string, name: string, ndot: int)
    requires 0 <= ndot < |name|
    requires LastIndexOf(prefix + name, '/') == |prefix| - 1
    requires LastIndexOf(name, '/') == -1
    requires LastIndexOf(prefix + name, '.') == |prefix| + ndot
    requires LastIndexOf(name, '.') == ndot
    ensures SplitExt(prefix + name) == (prefix + SplitExt(name).0, SplitExt(name).1)
  {
    var p := prefix + name;
    assert p[|prefix|..|prefix| + ndot] == name[0..ndot];
    assert p[..|prefix| + ndot] == prefix + name[..ndot];
    assert p[|prefix| + ndot..] == name[ndot..];
  }

  /** `s.replace(pat, rep)`: scanning from the left, every occurrence of `pat` that does not
      overlap an earlier replaced one becomes `rep`. (Python treats an empty `pat` differently;
      the script never passes one.) */
  function Replace(s: string, pat: string, rep: string): string
    requires pat != []
    decreases |s|
  {
    if |s| < |pat| then s
    else if s[..|pat|] == pat then rep + Replace(s[|pat|..], pat, rep)
    else [s[0]] + Replace(s[1..], pat, rep)
  }

  /** The number of occurrences `Replace` substitutes. */
  function ReplaceCount(s: string, pat: string): nat
    requires pat != []
    decreases |s|
  {
    if |s| < |pat| then 0
    else if s[..|pat|] == pat then 1 + ReplaceCount(s[|pat|..], pat)
    else ReplaceCount(s[1..], pat)
  }

  /** A string that starts with `pat` has that occurrence replaced, then the scan goes on
      after it. */
  lemma ReplaceAtMatch(s: string, pat: string, rep: string)
    requires pat != []
    ensures Replace(pat + s, pat, rep) == rep + Replace(s, pat, rep)
  {
    assert (pat + s)[..|pat|] == pat;
    assert (pat + s)[|pat|..] == s;
  }

  /** A string whose first character is not that of `pat` keeps that character. */
  lemma ReplaceAtMismatch(c: char, s: string, pat: string, rep: string)
    requires pat != [] && c != pat[0]
    ensures Replace([c] + s, pat, rep) == [c] + Replace(s, pat, rep)
  {
    assert ([c] + s)[1..] == s;
    if |s| + 1 >= |pat| {
      assert ([c] + s)[..|pat|][0] == c;
    }
  }

  /** A prefix without the first character of `pat` passes through unchanged. */
  lemma {:induction false} ReplaceKeepsPrefix(a: string, s: string, pat: string, rep: string)
    requires pat != [] && Lacks(a, pat[0])
    ensures Replace(a + s, pat, rep) == a + Replace(s, pat, rep)
    decreases |a|
  {
    if a != [] {
      ReplaceAtMismatch(a[0], a[1..] + s, pat, rep);
      assert a + s == [a[0]] + (a[1..] + s);
      assert Lacks(a[1..], pat[0]) by {
        forall k | 0 <= k < |a[1..]| ensures a[1..][k] != pat[0] {
          assert a[1..][k] == a[k + 1];
        }
      }
      ReplaceKeepsPrefix(a[1..], s, pat, rep);
      assert a == [a[0]] + a[1..];
    } else {
      assert a + s == s;
    }
  }

  /** Replacing by the empty string removes whole occurrences of `pat`, nothing else. */
  lemma {:induction false} RemoveLength(s: string, pat: string)
    requires pat != []
    ensures |Replace(s, pat, [])| + ReplaceCount(s, pat) * |pat| == |s|
    decreases |s|
  {
    if |s| < |pat| {
    } else if s[..|pat|] == pat {
      RemoveLength(s[|pat|..], pat);
      var c := ReplaceCount(s[|pat|..], pat);
      assert (1 + c) * |pat| == c * |pat| + |pat|;
    } else {
      RemoveLength(s[1..], pat);
    }
  }

  /** When the only occurrence of `pat` in `s` is a trailing one, replacing acts as a suffix
      substitution. */
  lemma {:induction false} ReplaceOnlyTrailing(s: string, pat: string, rep: string)
    requires pat != [] && EndsWith(s, pat)
    requires forall i :: 0 <= i < |s| - |pat| ==> !OccursAt(s, pat, i)
    ensures Replace(s, pat, rep) == s[..|s| - |pat|] + rep
    decreases |s|
  {
    if |s| == |pat| {
      assert s[..|pat|] == pat;
      assert s[|pat|..] == [];
    } else {
      assert !OccursAt(s, pat, 0);
      assert s[..|pat|] != pat by { assert s[0..|pat|] == s[..|pat|]; }
      var t := s[1..];
      assert t[|t| - |pat|..] == s[|s| - |pat|..];
      forall i | 0 <= i < |t| - |pat| ensures !OccursAt(t, pat, i) {
        assert !OccursAt(s, pat, i + 1);
        assert t[i..i + |pat|] == s[i + 1..i + 1 + |pat|];
      }
      ReplaceOnlyTrailing(t, pat, rep);
      assert s[..|s| - |pat|] == [s[0]] + t[..|t| - |pat|];
    }
  }
}

=== FILE: splitter.dfy ===
/** The size splitter of script.py: `cut_large_mp3_files` and its variant
    `process_and_cleanup_mp3_files`. A directory is a map from file name to what the script
    reads of the file: its byte size and the length of its decoded audio. One run walks a
    listing taken once at the start; each listed `.mp3` file that is over the size limit when
    its turn comes is cut at the middle of its audio into two new files, and the variant that
    cleans up then deletes the original. */
module Splitter {
  import opened Paths

  /** A file as the splitter sees it: `os.path.getsize` in bytes, and `len(AudioSegment)` of
      its decoded audio in milliseconds. */
  datatype Entry = Entry(bytes: nat, durationMs: nat)

  type Dir = map<string, Entry>

  /** `KeepOriginal` is `cut_large_mp3_files`; `DeleteOriginal` is
      `process_and_cleanup_mp3_files`, which also removes each file it cut. */
  datatype Variant = KeepOriginal | DeleteOriginal

  const MiB: nat := 1024 * 1024

  /** The limit in MiB: 25 for the keeping variant, 24 for the deleting one. */
  function LimitMiB(v: Variant): nat
  {
    match v
    case KeepOriginal => 25
    case DeleteOriginal => 24
  }

  /** The size test as the script writes it: the size divided by 1024 * 1024 compared with
      the limit. */
  predicate OverLimit(v: Variant, bytes: nat)
  {
    (bytes as real) / (MiB as real) > LimitMiB(v) as real
  }

  /** Dividing by a power of two loses nothing, so the size test is exactly a comparison of
      byte counts: a file of exactly the limit is not over it. */
  lemma SizeTestExact(v: Variant, bytes: nat)
    ensures OverLimit(v, bytes) <==> bytes > LimitMiB(v) * MiB
  {
    var x := bytes as real;
    var c := MiB as real;
    var l := LimitMiB(v) as real;
    assert c > 0.0;
    assert (x / c) * c == x;
    if x / c > l {
      assert (x / c) * c > l * c;
    } else {
      assert (x / c) * c <= l * c;
    }
    assert (LimitMiB(v) * MiB) as real == l * c;
  }

  /** Whether the splitter cuts the file `name` with entry `e` when it reaches it. */
  predicate Cuts(v: Variant, name: string, e: Entry)
  {
    IsMp3(name) && OverLimit(v, e.bytes)
  }

  /** `filename.replace('.mp3', '')`: every occurrence of `.mp3` is removed, not just the
      extension. */
  function Base(name: string): string
  {
    Replace(name, ".mp3", "")
  }

  /** The name of an exported half: `f"{base_filename} {part}.mp3"`. */
  function HalfName(name: string, part: char): (r: string)
    ensures IsMp3(r) && r != name
  {
    RemoveLength(name, ".mp3");
    var r := Base(name) + [' ', part] + ".mp3";
    assert r[|Base(name)| + 2..] == ".mp3";
    r
  }

  function FirstHalfName(name: string): string
  {
    HalfName(name, '1')
  }

  function SecondHalfName(name: string): string
  {
    HalfName(name, '2')
  }

  /** Two files share a half name exactly when their bases are equal, and then only the same
      half; a first half is never a second half. */
  lemma HalfNamesDisjoint(a: string, b: string)
    ensures FirstHalfName(a) != SecondHalfName(b)
    ensures FirstHalfName(a) == FirstHalfName(b) <==> Base(a) == Base(b)
    ensures SecondHalfName(a) == SecondHalfName(b) <==> Base(a) == Base(b)
  {
    var x, y := Base(a), Base(b);
    if |x| == |y| {
      assert FirstHalfName(a)[|x| + 1] == '1';
      assert SecondHalfName(b)[|y| + 1] == '2';
      if FirstHalfName(a) == FirstHalfName(b) || SecondHalfName(a) == SecondHalfName(b) {
        assert x == FirstHalfName(a)[..|x|] == SecondHalfName(a)[..|x|];
        assert y == FirstHalfName(b)[..|y|] == SecondHalfName(b)[..|y|];
      }
    }
  }

  /** For a name whose only `.mp3` is its extension, the halves are the stem followed by
      " 1.mp3" and " 2.mp3". */
  lemma HalfNamesOfPlainName(stem: string)
    requires forall i :: 0 <= i < |stem| ==> !OccursAt(stem + ".mp3", ".mp3", i)
    ensures FirstHalfName(stem + ".mp3") == stem + " 1.mp3"
    ensures SecondHalfName(stem + ".mp3") == stem + " 2.mp3"
  {
    var name := stem + ".mp3";
    assert name[..|name| - 4] == stem;
    assert name[|name| - 4..] == ".mp3";
    ReplaceOnlyTrailing(name, ".mp3", "");
  }

  /** Removing every occurrence rather than the extension: a file named `talk.mp3.mp3` has
      the same halves as `talk.mp3`, so cutting both writes each half name twice. */
  lemma EveryOccurrenceRemoved(stem: string)
    requires Lacks(stem, '.')
    ensures Base(stem + ".mp3.mp3") == stem
    ensures FirstHalfName(stem + ".mp3.mp3") == FirstHalfName(stem + ".mp3") == stem + " 1.mp3"
  {
    var e := ".mp3";
    ReplaceAtMatch("", e, "");
    ReplaceAtMatch(e, e, "");
    ReplaceKeepsPrefix(stem, e + e, e, "");
    assert stem + (e + e) == stem + ".mp3.mp3";
    HalfNameOfPlain(stem, '1');
    assert stem + [' ', '1'] + e == stem + " 1.mp3";
  }

  /** The base of `stem.mp3`, for a stem without dots, is the stem. */
  lemma BaseOfPlain(stem: string)
    requires Lacks(stem, '.')
    ensures Base(stem + ".mp3") == stem
  {
    ReplaceAtMatch("", ".mp3", "");
    ReplaceKeepsPrefix(stem, ".mp3", ".mp3", "");
    assert ".mp3" + [] == ".mp3";
  }

  lemma HalfNameOfPlain(stem: string, part: char)
    requires Lacks(stem, '.')
    ensures HalfName(stem + ".mp3", part) == stem + [' ', part] + ".mp3"
  {
    BaseOfPlain(stem);
  }

  /** `len(audio) // 2`: the first half is `audio[:h]` and the second `audio[h:]`, so the
      second is as long as the first or one millisecond longer. */
  function CutPoint(durationMs: nat): (h: nat)
    ensures h <= durationMs - h <= h + 1
  {
    durationMs / 2
  }

  /** The first exported half of a file: its length is the cut point, its size whatever the
      MP3 encoder produces for that length (`encode`, a parameter of the model). */
  function FirstHalf(encode: nat -> nat, e: Entry): (r: Entry)
    ensures r.durationMs == CutPoint(e.durationMs)
  {
    var h := CutPoint(e.durationMs);
    Entry(encode(h), h)
  }

  /** The second exported half: the rest of the audio after the cut point. */
  function SecondHalf(encode: nat -> nat, e: Entry): (r: Entry)
    ensures FirstHalf(encode, e).durationMs + r.durationMs == e.durationMs
    ensures FirstHalf(encode, e).durationMs <= r.durationMs
  {
    var rest := e.durationMs - CutPoint(e.durationMs);
    Entry(encode(rest), rest)
  }

  /** `k` holds the same file, or is absent, in both directories. */
  predicate SameAt(d: Dir, r: Dir, k: string)
  {
    (k in d <==> k in r) && (k in d ==> d[k] == r[k])
  }

  /** One turn of the loop: the size test on the file's current entry, then the two exports
      and, in the deleting variant, the removal of the original. */
  function SplitFile(v: Variant, encode: nat -> nat, d: Dir, name: string): (r: Dir)
    requires name in d
    ensures !Cuts(v, name, d[name]) ==> r == d
    ensures Cuts(v, name, d[name]) ==>
              && FirstHalfName(name) in r && r[FirstHalfName(name)] == FirstHalf(encode, d[name])
              && SecondHalfName(name) in r && r[SecondHalfName(name)] == SecondHalf(encode, d[name])
              && (name in r <==> v.KeepOriginal?)
              && (name in r ==> r[name] == d[name])
    ensures forall k :: k != name && k != FirstHalfName(name) && k != SecondHalfName(name) ==>
              SameAt(d, r, k)
  {
    if !Cuts(v, name, d[name]) then d
    else
      HalfNamesDisjoint(name, name);
      var written := d[FirstHalfName(name) := FirstHalf(encode, d[name])]
                      [SecondHalfName(name) := SecondHalf(encode, d[name])];
      match v
      case KeepOriginal => written
      case DeleteOriginal => written - {name}
  }

  /** `k` is a half name of some listed file. */
  predicate HalfOfListed(k: string, listing: seq<string>)
  {
    exists i :: 0 <= i < |listing| &&
      (k == FirstHalfName(listing[i]) || k == SecondHalfName(listing[i]))
  }

  /** The listed names are distinct files of the directory. */
  predicate Listed(d: Dir, listing: seq<string>)
  {
    Distinct(listing) && forall i :: 0 <= i < |listing| ==> listing[i] in d
  }

  /** The loop over a listing taken before the loop starts: names written during the loop
      are not visited unless they were already listed. */
  function SplitPass(v: Variant, encode: nat -> nat, d: Dir, listing: seq<string>): (r: Dir)
    requires Listed(d, listing)
    ensures v.KeepOriginal? ==> d.Keys <= r.Keys
    ensures forall k :: k in d && k !in listing ==> k in r
    ensures forall k :: k in r && k !in d ==> HalfOfListed(k, listing)
    decreases |listing|
  {
    if listing == [] then d
    else
      var name := listing[0];
      var d' := SplitFile(v, encode, d, name);
      TurnKeepsListing(v, encode, d, listing);
      var r := SplitPass(v, encode, d', listing[1..]);
      HalfOfListedGrows(listing);
      r
  }

  /** After the first turn, the rest of the listing is still listed in the directory. */
  lemma TurnKeepsListing(v: Variant, encode: nat -> nat, d: Dir, listing: seq<string>)
    requires Listed(d, listing) && listing != []
    ensures Listed(SplitFile(v, encode, d, listing[0]), listing[1..])
  {
    var rest := listing[1..];
    forall i | 0 <= i < |rest| ensures rest[i] in SplitFile(v, encode, d, listing[0]) {
      assert rest[i] == listing[i + 1] != listing[0];
    }
    forall i, j | 0 <= i < j < |rest| ensures rest[i] != rest[j] {
      assert rest[i] == listing[i + 1] && rest[j] == listing[j + 1];
    }
  }

  /** The half names of the first listed file and of the rest are half names of the listing. */
  lemma HalfOfListedGrows(listing: seq<string>)
    requires listing != []
    ensures HalfOfListed(FirstHalfName(listing[0]), listing)
    ensures HalfOfListed(SecondHalfName(listing[0]), listing)
    ensures forall k :: HalfOfListed(k, listing[1..]) ==> HalfOfListed(k, listing)
  {
    forall k, i | 0 <= i < |listing[1..]| &&
                  (k == FirstHalfName(listing[1..][i]) || k == SecondHalfName(listing[1..][i]))
      ensures HalfOfListed(k, listing)
    {
      assert listing[1..][i] == listing[i + 1];
    }
  }

  /** A listing of the whole directory, as `os.listdir` returns it: each name once, in an
      order the model leaves open. */
  predicate ListingOf(d: Dir, listing: seq<string>)
  {
    Listed(d, listing) && forall k :: k in d ==> k in listing
  }

  /** `cut_large_mp3_files(directory)`. */
  function CutLargeMp3Files(encode: nat -> nat, d: Dir, listing: seq<string>): (r: Dir)
    requires ListingOf(d, listing)
    ensures d.Keys <= r.Keys
    ensures forall k :: k in r && k !in d ==> HalfOfListed(k, listing)
  {
    SplitPass(KeepOriginal, encode, d, listing)
  }

  /** `process_and_cleanup_mp3_files(directory)`. */
  function ProcessAndCleanupMp3Files(encode: nat -> nat, d: Dir, listing: seq<string>): (r: Dir)
    requires ListingOf(d, listing)
    ensures forall k :: k in r && k !in d ==> HalfOfListed(k, listing)
  {
    SplitPass(DeleteOriginal, encode, d, listing)
  }

  /** A file that is not a half name of a listed file, and is not cut when its own turn
      comes, is neither removed nor changed by a run. */
  lemma {:induction false} PassLeavesAlone(v: Variant, encode: nat -> nat, d: Dir,
      listing: seq<string>, k: string)
    requires Listed(d, listing)
    requires !HalfOfListed(k, listing)
    requires k in listing ==> !Cuts(v, k, d[k])
    ensures SameAt(d, SplitPass(v, encode, d, listing), k)
    decreases |listing|
  {
    if listing != [] {
      var name := listing[0];
      var rest := listing[1..];
      var d' := SplitFile(v, encode, d, name);
      assert k != FirstHalfName(name) && k != SecondHalfName(name) by {
        assert listing[0] == name;
      }
      assert SameAt(d, d', k);
      forall i | 0 <= i < |rest|
        ensures k != FirstHalfName(rest[i]) && k != SecondHalfName(rest[i])
      {
        assert rest[i] == listing[i + 1];
      }
      assert k in rest ==> k in listing && k != name;
      PassLeavesAlone(v, encode, d', rest, k);
    }
  }

  /** Every file that does not end in `.mp3` comes out of either variant as it went in. */
  lemma NonMp3Untouched(v: Variant, encode: nat -> nat, d: Dir, listing: seq<string>, k: string)
    requires Listed(d, listing)
    requires !IsMp3(k)
    ensures SameAt(d, SplitPass(v, encode, d, listing), k)
  {
    forall i | 0 <= i < |listing|
      ensures k != FirstHalfName(listing[i]) && k != SecondHalfName(listing[i])
    {
      assert IsMp3(FirstHalfName(listing[i])) && IsMp3(SecondHalfName(listing[i]));
    }
    PassLeavesAlone(v, encode, d, listing, k);
  }

  /** `n` is a file of `d` that the splitter cuts when it reaches it with entry `d[n]`. */
  predicate CutIn(v: Variant, d: Dir, n: string)
  {
    n in d && Cuts(v, n, d[n])
  }

  /** No export of the run writes a name that exists when the run starts or that another
      export writes: the half names of the listed files that are cut do not exist yet, and no
      two of those files have the same base. Files that are not cut are unconstrained. */
  predicate FreshHalves(v: Variant, d: Dir, listing: seq<string>)
  {
    && (forall i :: 0 <= i < |listing| && CutIn(v, d, listing[i]) ==>
          FirstHalfName(listing[i]) !in d && SecondHalfName(listing[i]) !in d)
    && (forall i, j ::
          0 <= i < j < |listing| && CutIn(v, d, listing[i]) && CutIn(v, d, listing[j]) ==>
          Base(listing[i]) != Base(listing[j]))
  }

  /** What a run does to a listed file when no export overwrites anything: a file over the
      limit gets its two halves, which partition its audio, and is kept or deleted according
      to the variant; any other file stays as it is. Halves written in the run are left as
      written, however large. */
  predicate Outcome(v: Variant, encode: nat -> nat, d: Dir, r: Dir, n: string)
    requires n in d
  {
    if Cuts(v, n, d[n]) then
      && FirstHalfName(n) in r && r[FirstHalfName(n)] == FirstHalf(encode, d[n])
      && SecondHalfName(n) in r && r[SecondHalfName(n)] == SecondHalf(encode, d[n])
      && (n in r <==> v.KeepOriginal?)
      && (n in r ==> r[n] == d[n])
    else
      n in r && r[n] == d[n]
  }

  lemma {:induction false} SplitPassExact(v: Variant, encode: nat -> nat, d: Dir,
      listing: seq<string>)
    requires Listed(d, listing) && FreshHalves(v, d, listing)
    ensures forall i :: 0 <= i < |listing| ==>
              Outcome(v, encode, d, SplitPass(v, encode, d, listing), listing[i])
    decreases |listing|
  {
    if listing != [] {
      var name := listing[0];
      var rest := listing[1..];
      var d' := SplitFile(v, encode, d, name);
      var r := SplitPass(v, encode, d', rest);
      assert r == SplitPass(v, encode, d, listing);
      RestOfRun(v, encode, d, listing);
      SplitPassExact(v, encode, d', rest);
      FirstTurnSurvives(v, encode, d, listing);
      assert Outcome(v, encode, d, r, name);
      forall i | 0 <= i < |listing| ensures Outcome(v, encode, d, r, listing[i]) {
        if i > 0 {
          assert listing[i] == rest[i - 1];
          assert Outcome(v, encode, d', r, rest[i - 1]);
        }
      }
    }
  }

  /** After the first turn of a run without overwrites, the rest of the listing sees the
      entries it would have seen at the start, and still has fresh halves. */
  lemma RestOfRun(v: Variant, encode: nat -> nat, d: Dir, listing: seq<string>)
    requires Listed(d, listing) && FreshHalves(v, d, listing) && listing != []
    ensures var d' := SplitFile(v, encode, d, listing[0]);
              && Listed(d', listing[1..]) && FreshHalves(v, d', listing[1..])
              && forall i :: 1 <= i < |listing| ==> d'[listing[i]] == d[listing[i]]
  {
    var name := listing[0];
    var rest := listing[1..];
    var d' := SplitFile(v, encode, d, name);
    forall i | 1 <= i < |listing|
      ensures listing[i] in d' && d'[listing[i]] == d[listing[i]]
    {
      assert listing[i] != name && listing[i] in d;
    }
    forall i | 1 <= i < |listing| && CutIn(v, d, listing[i])
      ensures FirstHalfName(listing[i]) !in d' && SecondHalfName(listing[i]) !in d'
    {
      HalfNamesDisjoint(name, listing[i]);
      HalfNamesDisjoint(listing[i], name);
      if CutIn(v, d, name) {
        assert Base(name) != Base(listing[i]);
      }
    }
    forall i, j | 0 <= i < j < |rest| ensures rest[i] != rest[j] {
      assert rest[i] == listing[i + 1] && rest[j] == listing[j + 1];
    }
    forall i | 0 <= i < |rest| && CutIn(v, d', rest[i])
      ensures rest[i] in d' && FirstHalfName(rest[i]) !in d' && SecondHalfName(rest[i]) !in d'
    {
      assert rest[i] == listing[i + 1];
    }
    forall i, j | 0 <= i < j < |rest| && CutIn(v, d', rest[i]) && CutIn(v, d', rest[j])
      ensures Base(rest[i]) != Base(rest[j])
    {
      assert rest[i] == listing[i + 1] && rest[j] == listing[j + 1];
    }
  }

  /** In a run without overwrites, a name is left alone when no file cut in the run has it as
      a half name and it is not itself a listed file that is cut. */
  lemma {:induction false} FreshPassLeavesAlone(v: Variant, encode: nat -> nat, d: Dir,
      listing: seq<string>, k: string)
    requires Listed(d, listing) && FreshHalves(v, d, listing)
    requires forall i :: 0 <= i < |listing| && CutIn(v, d, listing[i]) ==>
               k != FirstHalfName(listing[i]) && k != SecondHalfName(listing[i])
    requires k in listing ==> !CutIn(v, d, k)
    ensures SameAt(d, SplitPass(v, encode, d, listing), k)
    decreases |listing|
  {
    if listing != [] {
      var name := listing[0];
      var rest := listing[1..];
      var d' := SplitFile(v, encode, d, name);
      assert SameAt(d, d', k) by {
        if CutIn(v, d, name) {
          assert k != FirstHalfName(listing[0]) && k != SecondHalfName(listing[0]);
        }
      }
      RestOfRun(v, encode, d, listing);
      forall i | 0 <= i < |rest| && CutIn(v, d', rest[i])
        ensures k != FirstHalfName(rest[i]) && k != SecondHalfName(rest[i])
      {
        assert rest[i] == listing[i + 1] && CutIn(v, d, listing[i + 1]);
      }
      assert k in rest ==> k in listing;
      FreshPassLeavesAlone(v, encode, d', rest, k);
    }
  }

  /** In a run without overwrites, the file of the first turn, and its two half names when it
      is cut, are not touched again by the rest of the run. */
  lemma FirstTurnSurvives(v: Variant, encode: nat -> nat, d: Dir, listing: seq<string>)
    requires Listed(d, listing) && FreshHalves(v, d, listing) && listing != []
    ensures var name := listing[0];
            var d' := SplitFile(v, encode, d, name);
            var r := SplitPass(v, encode, d', listing[1..]);
              && Listed(d', listing[1..])
              && SameAt(d', r, name)
              && (CutIn(v, d, name) ==>
                    SameAt(d', r, FirstHalfName(name)) && SameAt(d', r, SecondHalfName(name)))
  {
    var name := listing[0];
    var rest := listing[1..];
    var d' := SplitFile(v, encode, d, name);
    RestOfRun(v, encode, d, listing);
    forall k | k == name ||
               (CutIn(v, d, name) && (k == FirstHalfName(name) || k == SecondHalfName(name)))
      ensures SameAt(d', SplitPass(v, encode, d', rest), k)
    {
      forall i | 0 <= i < |rest| && CutIn(v, d', rest[i])
        ensures rest[i] != k && k != FirstHalfName(rest[i]) && k != SecondHalfName(rest[i])
      {
        assert rest[i] == listing[i + 1] && CutIn(v, d, listing[i + 1]);
        HalfNamesDisjoint(name, rest[i]);
        HalfNamesDisjoint(rest[i], name);
      }
      forall i | 0 <= i < |rest| ensures rest[i] != k {
        assert rest[i] == listing[i + 1] && rest[i] in d;
      }
      FreshPassLeavesAlone(v, encode, d', rest, k);
    }
  }

  /** `process_and_cleanup_mp3_files` deletes a file exactly when it cut it, and
      `cut_large_mp3_files` never deletes one. */
  lemma DeletesExactlyTheCutFiles(encode: nat -> nat, d: Dir, listing: seq<string>, n: string)
    requires ListingOf(d, listing) && FreshHalves(DeleteOriginal, d, listing)
    requires n in d
    ensures n !in ProcessAndCleanupMp3Files(encode, d, listing) <==> Cuts(DeleteOriginal, n, d[n])
    ensures n in CutLargeMp3Files(encode, d, listing)
  {
    var i :| 0 <= i < |listing| && listing[i] == n;
    SplitPassExact(DeleteOriginal, encode, d, listing);
    var r := ProcessAndCleanupMp3Files(encode, d, listing);
    assert Outcome(DeleteOriginal, encode, d, r, listing[i]);
  }

  /** A first half exported over the limit stays as written to the end of the run, still over
      the limit, so a later run that reaches it with that entry cuts it. */
  lemma OversizedHalfCutNextRun(v: Variant, encode: nat -> nat, d: Dir, listing: seq<string>,
      n: string)
    requires Listed(d, listing) && FreshHalves(v, d, listing)
    requires n in listing && Cuts(v, n, d[n])
    requires encode(CutPoint(d[n].durationMs)) > LimitMiB(v) * MiB
    ensures var r := SplitPass(v, encode, d, listing);
              && FirstHalfName(n) in r && r[FirstHalfName(n)] == FirstHalf(encode, d[n])
              && Cuts(v, FirstHalfName(n), r[FirstHalfName(n)])
  {
    var i :| 0 <= i < |listing| && listing[i] == n;
    SplitPassExact(v, encode, d, listing);
    var r := SplitPass(v, encode, d, listing);
    assert Outcome(v, encode, d, r, listing[i]);
    SizeTestExact(v, r[FirstHalfName(n)].bytes);
  }

  /** The cut is not guarded against existing names. When `x 1.mp3` is listed before `x.mp3`
      and both are over the limit, the cleanup variant cuts and deletes `x 1.mp3`, and then
      writes the first half of `x.mp3` under that same name. */
  lemma ListedHalfRecreated(encode: nat -> nat, d: Dir, x: string)
    requires Lacks(x, '.')
    requires x + " 1.mp3" in d && x + ".mp3" in d
    requires Cuts(DeleteOriginal, x + " 1.mp3", d[x + " 1.mp3"])
    requires Cuts(DeleteOriginal, x + ".mp3", d[x + ".mp3"])
    ensures var r := SplitPass(DeleteOriginal, encode, d, [x + " 1.mp3", x + ".mp3"]);
              && x + " 1 1.mp3" in r && r[x + " 1 1.mp3"] == FirstHalf(encode, d[x + " 1.mp3"])
              && x + " 1.mp3" in r && r[x + " 1.mp3"] == FirstHalf(encode, d[x + ".mp3"])
              && x + ".mp3" !in r
  {
    var half, orig := x + " 1.mp3", x + ".mp3";
    HalfNamesOfStem(x);
    var listing := [half, orig];
    var d1 := SplitFile(DeleteOriginal, encode, d, half);
    assert |orig| < |FirstHalfName(half)| && |orig| < |SecondHalfName(half)|;
    assert d1[orig] == d[orig];
    var d2 := SplitFile(DeleteOriginal, encode, d1, orig);
    assert |half| != |orig|;
    assert listing[1..] == [orig] && [orig][1..] == [];
    assert SplitPass(DeleteOriginal, encode, d2, []) == d2;
    assert SplitPass(DeleteOriginal, encode, d1, [orig]) == d2;
    assert SplitPass(DeleteOriginal, encode, d, listing) == d2;
  }

  /** The half names of `x.mp3` and of its own first half `x 1.mp3`, for a stem without dots. */
  lemma HalfNamesOfStem(x: string)
    requires Lacks(x, '.')
    ensures FirstHalfName(x + ".mp3") == x + " 1.mp3"
    ensures FirstHalfName(x + " 1.mp3") == x + " 1 1.mp3"
    ensures SecondHalfName(x + " 1.mp3") == x + " 1 2.mp3"
  {
    var e := ".mp3";
    var y := x + " 1";
    assert Lacks(y, '.') by {
      forall k | 0 <= k < |y| ensures y[k] != '.' {
        if k < |x| { assert y[k] == x[k]; }
      }
    }
    HalfNameOfPlain(x, '1');
    HalfNameOfPlain(y, '1');
    HalfNameOfPlain(y, '2');
    assert " 1" + e == " 1.mp3";
    assert y + e == x + (" 1" + e);
    assert x + [' ', '1'] + e == x + " 1.mp3";
    assert y + [' ', '1'] + e == x + " 1 1.mp3";
    assert y + [' ', '2'] + e == x + " 1 2.mp3";
  }
}

=== FILE: transcriber.dfy ===
/** The transcription runner of script.py: the write decision of `transcribe_audio_to_text`
    and the skip-and-retry loop of `transcribe_all_mp3_in_directory`. The HTTP exchange is
    not modelled; each call of `transcribe_audio_to_text` is reduced to its outcome, which the
    model takes as input. */
module Transcriber {
  import opened Paths
  import opened Wrappers

  /** The body of a response as `response.json().get('text')` sees it: a JSON object whose
      `text` field is present (`Some`) or not (`None`), or a body on which that expression
      raises, because it is not JSON or its JSON value is not an object. */
  datatype Body = Json(text: Option<string>) | NotJson

  datatype Response = Response(status: int, body: Body)

  /** What one call of `transcribe_audio_to_text` amounts to for the loop around it. */
  datatype CallOutcome =
    | Returned(response: Response)  // it returned after receiving `response`
    | HttpError(status: int)        // it raised `requests.exceptions.HTTPError` for `status`
    | OtherError                    // it raised any other exception

  /** The text written for a response: the `text` field of a 200 response, when present and
      not empty. */
  function SavedText(response: Response): (t: Option<string>)
    ensures t.Some? <==>
              && response.status == 200 && response.body.Json?
              && response.body.text.Some? && response.body.text.value != []
    ensures t.Some? ==> t == response.body.text
  {
    if response.status != 200 then None
    else match response.body
      case NotJson => None
      case Json(text) => if text.Some? && text.value != [] then text else None
  }

  /** `os.path.splitext(path)[0] + '.txt'`: the path with its last extension, if any,
      replaced by `.txt`. */
  function TranscriptPath(path: string): (t: string)
    ensures EndsWith(t, ".txt")
    ensures IsMp3(path) ==> t != path
    ensures path != [] ==> t[0] == path[0]
  {
    var t := SplitExt(path).0 + ".txt";
    assert t[|t| - 4..] == ".txt";
    assert t[|t| - 1] == 't';
    assert IsMp3(path) ==> path[|path| - 1] == path[|path| - 4..][3] == '3';
    t
  }

  /** For an audio name whose stem is not only dots, the transcript is the stem plus `.txt`;
      for a stem of dots only, `splitext` finds no extension and `.txt` is appended. */
  lemma TranscriptOfMp3Name(stem: string)
    requires Lacks(stem, '/')
    ensures !AllDots(stem) ==> TranscriptPath(stem + ".mp3") == stem + ".txt"
    ensures AllDots(stem) ==> TranscriptPath(stem + ".mp3") == stem + ".mp3.txt"
  {
    SplitExtOfExtension(stem, ".mp3");
  }

  /** The script builds the transcript path from the joined audio path; for a plain file name
      that is the directory joined with the transcript name of the file, so the model may work
      with names inside one directory. */
  lemma TranscriptBesideAudio(directory: string, name: string)
    requires name != [] && Lacks(name, '/')
    ensures TranscriptPath(Join(directory, name)) == Join(directory, TranscriptPath(name))
  {
    assert !StartsWith(name, "/") by { assert name[..1][0] == name[0] != '/'; }
    var t := TranscriptPath(name);
    assert !StartsWith(t, "/") by { assert t[..1][0] == t[0] == name[0]; }
    var prefix := if directory == [] || EndsWith(directory, "/") then directory
                  else directory + "/";
    assert prefix == [] || prefix[|prefix| - 1] == '/' by {
      if directory != [] && EndsWith(directory, "/") {
        assert directory[|directory| - 1] == directory[|directory| - 1..][0];
      }
    }
    assert Join(directory, name) == prefix + name;
    assert Join(directory, t) == prefix + t;
    TranscriptUnderPrefix(prefix, name);
  }

  /** `TranscriptBesideAudio` once the join is written as a prefix. */
  lemma TranscriptUnderPrefix(prefix: string, name: string)
    requires prefix == [] || prefix[|prefix| - 1] == '/'
    requires Lacks(name, '/')
    ensures TranscriptPath(prefix + name) == prefix + TranscriptPath(name)
  {
    SplitExtUnderDirectory(prefix, name);
    assert (prefix + SplitExt(name).0) + ".txt" == prefix + (SplitExt(name).0 + ".txt");
  }

  /** A file `transcribe_audio_to_text` writes: where, and what. */
  datatype Write = Write(path: string, text: string)

  /** `transcribe_audio_to_text(audio_file_path, save_path)` once the response is in: the
      file it writes, if any. An absent or empty `save_path` falls back to the transcript path
      of the audio file (`save_path or ...`). */
  function TranscribeAudioToText(audioPath: string, savePath: Option<string>,
      response: Response): (w: Option<Write>)
    ensures w.Some? <==> SavedText(response).Some?
    ensures w.Some? ==> w.value.text == SavedText(response).value && w.value.text != []
    ensures w.Some? ==>
              w.value.path == if savePath.Some? && savePath.value != [] then savePath.value
                              else TranscriptPath(audioPath)
  {
    match SavedText(response)
    case None => None
    case Some(text) =>
      var path := if savePath.Some? && savePath.value != [] then savePath.value
                  else TranscriptPath(audioPath);
      Some(Write(path, text))
  }

  /** The loop passes the transcript path as `save_path`, so the text lands beside the audio
      under the same name, never on the audio file itself. */
  lemma LoopWritesTranscriptPath(audioPath: string, response: Response)
    requires IsMp3(audioPath)
    ensures var w := TranscribeAudioToText(audioPath, Some(TranscriptPath(audioPath)), response);
              w.Some? ==> w.value.path == TranscriptPath(audioPath) != audioPath
  {
  }

  /** The one outcome the loop retries: `HTTPError` with status 503. */
  predicate Retryable(o: CallOutcome)
  {
    o.HttpError? && o.status == 503
  }

  /** How a file's loop ended: on the outcome that broke it, or because `retries` reached
      `max_retries`. */
  datatype LoopEnd = Broke(last: CallOutcome) | Exhausted

  /** The calls made, the sleeps taken and how the loop ended. */
  datatype Attempts = Attempts(calls: nat, sleeps: nat, end: LoopEnd)

  function Max0(m: int): nat
  {
    if m > 0 then m else 0
  }

  /** The `while retries < max_retries` loop from a given value of `retries`. The call made
      while `retries == k` has outcome `next(k)`: only a 503 `HTTPError` leads to a sleep and
      another round; a normal return or any other exception breaks the loop. */
  function RetryLoop(next: nat -> CallOutcome, retries: nat, maxRetries: int): (a: Attempts)
    ensures retries >= maxRetries ==> a == Attempts(0, 0, Exhausted)
    ensures retries < maxRetries ==> 1 <= a.calls && retries + a.calls <= maxRetries
    ensures a.calls == a.sleeps + (if a.end.Broke? then 1 else 0)
    ensures forall k :: retries <= k < retries + a.sleeps ==> Retryable(next(k))
    ensures a.end.Broke? ==> a.end.last == next(retries + a.sleeps) && !Retryable(a.end.last)
    ensures a.end.Exhausted? && retries < maxRetries ==> retries + a.calls == maxRetries
    decreases maxRetries - retries
  {
    if retries >= maxRetries then Attempts(0, 0, Exhausted)
    else if Retryable(next(retries)) then
      var rest := RetryLoop(next, retries + 1, maxRetries);
      Attempts(rest.calls + 1, rest.sleeps + 1, rest.end)
    else
      Attempts(1, 0, Broke(next(retries)))
  }

  /** From its start (`retries = 0`), the loop makes at most `max_retries` calls, none when
      `max_retries <= 0`; it ends on the first outcome that is not a 503 `HTTPError`, after
      one sleep per 503 before it. */
  lemma RetryLoopFromStart(next: nat -> CallOutcome, maxRetries: int)
    ensures var a := RetryLoop(next, 0, maxRetries);
              && a.calls <= Max0(maxRetries)
              && (maxRetries <= 0 ==> a.calls == 0)
              && (forall k :: 0 <= k < a.sleeps ==> Retryable(next(k)))
              && (a.end.Broke? ==> a.end.last == next(a.sleeps) && !Retryable(next(a.sleeps)))
              && (a.end.Exhausted? ==> a.sleeps == a.calls == Max0(maxRetries))
  {
  }

  /** The loop stops at the first outcome that is not a 503 `HTTPError`, when it comes
      before `max_retries`: one call per 503 before it plus the one that breaks, one sleep per
      503. */
  lemma {:induction false} RetryLoopBreaksAt(next: nat -> CallOutcome, retries: nat,
      maxRetries: int, j: nat)
    requires retries <= j < maxRetries
    requires forall k :: retries <= k < j ==> Retryable(next(k))
    requires !Retryable(next(j))
    ensures RetryLoop(next, retries, maxRetries) ==
              Attempts(j - retries + 1, j - retries, Broke(next(j)))
    decreases j - retries
  {
    if retries < j {
      RetryLoopBreaksAt(next, retries + 1, maxRetries, j);
    }
  }

  /** When every call up to `max_retries` is a 503 `HTTPError`, the loop runs out: as many
      calls as sleeps, and no outcome breaks it. */
  lemma {:induction false} RetryLoopExhausts(next: nat -> CallOutcome, retries: nat,
      maxRetries: int)
    requires forall k :: retries <= k < maxRetries ==> Retryable(next(k))
    ensures RetryLoop(next, retries, maxRetries) ==
              Attempts(Max0(maxRetries - retries), Max0(maxRetries - retries), Exhausted)
    decreases maxRetries - retries
  {
    if retries < maxRetries {
      RetryLoopExhausts(next, retries + 1, maxRetries);
    }
  }

  /** The text the loop leaves behind: that of a normal return with a saved text. */
  function LoopText(a: Attempts): (t: Option<string>)
    ensures t.Some? ==> a.end.Broke? && a.end.last.Returned? && SavedText(a.end.last.response) == t
    ensures a.end.Broke? && a.end.last.Returned? ==> t == SavedText(a.end.last.response)
  {
    if a.end.Broke? && a.end.last.Returned? then SavedText(a.end.last.response) else None
  }

  /** The directory as the runner sees it: the names present, the transcripts written by the
      run so far, and the calls and sleeps made. */
  datatype Run = Run(present: set<string>, written: map<string, string>, calls: nat, sleeps: nat)

  /** The outcomes of the calls for one file. */
  function OutcomesFor(next: (string, nat) -> CallOutcome, name: string): nat -> CallOutcome
  {
    (k: nat) => next(name, k)
  }

  /** One turn of `transcribe_all_mp3_in_directory`: a `.mp3` file whose transcript already
      exists is skipped; otherwise the retry loop runs, and the call that returns normally
      writes what `TranscribeAudioToText` writes for its response, with the transcript path
      as `save_path`. */
  function TranscribeFile(st: Run, name: string, next: (string, nat) -> CallOutcome,
      maxRetries: int): (r: Run)
    ensures !IsMp3(name) || TranscriptPath(name) in st.present ==> r == st
    ensures IsMp3(name) && TranscriptPath(name) !in st.present ==>
              var a := RetryLoop(OutcomesFor(next, name), 0, maxRetries);
              && r.calls == st.calls + a.calls
              && r.sleeps == st.sleeps + a.sleeps
              && (LoopText(a).Some? ==>
                    && TranscriptPath(name) in r.written
                    && r.written[TranscriptPath(name)] == LoopText(a).value)
              && (LoopText(a).None? ==> r.written == st.written && r.present == st.present)
    ensures st.present <= r.present <= st.present + {TranscriptPath(name)}
    ensures forall k :: k != TranscriptPath(name) ==>
              && (k in r.written <==> k in st.written)
              && (k in r.written ==> r.written[k] == st.written[k])
    ensures r.written.Keys - st.written.Keys <= r.present
    ensures r.calls <= st.calls + Max0(maxRetries) && r.sleeps <= st.sleeps + Max0(maxRetries)
  {
    if !IsMp3(name) then st
    else
      var t := TranscriptPath(name);
      if t in st.present then st
      else
        var a := RetryLoop(OutcomesFor(next, name), 0, maxRetries);
        RetryLoopFromStart(OutcomesFor(next, name), maxRetries);
        var counted := st.(calls := st.calls + a.calls, sleeps := st.sleeps + a.sleeps);
        var w := if a.end.Broke? && a.end.last.Returned?
                 then TranscribeAudioToText(name, Some(t), a.end.last.response)
                 else None;
        assert w.Some? ==> w.value == Write(t, LoopText(a).value);
        match w
        case None => counted
        case Some(write) => counted.(present := st.present + {write.path},
            written := st.written[write.path := write.text])
  }

  /** A file without a transcript whose calls give 503 `HTTPError`s until one returns a 200
      response with text, within `max_retries` calls, gets that text as its transcript, after
      one sleep per 503. */
  lemma TranscriptOfFirstAnswer(st: Run, name: string, next: (string, nat) -> CallOutcome,
      maxRetries: int, j: nat, response: Response)
    requires IsMp3(name) && TranscriptPath(name) !in st.present
    requires j < maxRetries
    requires forall k :: 0 <= k < j ==> Retryable(next(name, k))
    requires next(name, j) == Returned(response) && SavedText(response).Some?
    ensures var r := TranscribeFile(st, name, next, maxRetries);
              && TranscriptPath(name) in r.written
              && r.written[TranscriptPath(name)] == SavedText(response).value
              && r.calls == st.calls + j + 1 && r.sleeps == st.sleeps + j
  {
    var outcomes := OutcomesFor(next, name);
    forall k: nat | k < j ensures Retryable(outcomes(k)) {
      assert outcomes(k) == next(name, k);
    }
    assert outcomes(j) == next(name, j);
    RetryLoopBreaksAt(outcomes, 0, maxRetries, j);
  }

  /** The transcript of a listed `.mp3` file. */
  predicate TranscriptOfListed(k: string, listing: seq<string>)
  {
    exists i :: 0 <= i < |listing| && IsMp3(listing[i]) && k == TranscriptPath(listing[i])
  }

  /** `transcribe_all_mp3_in_directory(directory, retry_delay, max_retries)` over a listing
      taken once at the start. The delay only matters to the sleeps, which are counted. */
  function TranscribeAll(st: Run, listing: seq<string>, next: (string, nat) -> CallOutcome,
      maxRetries: int): (r: Run)
    ensures st.present <= r.present
    ensures st.calls <= r.calls && st.sleeps <= r.sleeps
    ensures forall k :: k in r.present && k !in st.present ==> TranscriptOfListed(k, listing)
    ensures forall k :: k in r.written && !TranscriptOfListed(k, listing) ==>
              k in st.written && r.written[k] == st.written[k]
    decreases |listing|
  {
    if listing == [] then st
    else
      var st' := TranscribeFile(st, listing[0], next, maxRetries);
      var r := TranscribeAll(st', listing[1..], next, maxRetries);
      assert forall k :: TranscriptOfListed(k, listing[1..]) ==> TranscriptOfListed(k, listing) by {
        forall k, i | 0 <= i < |listing[1..]| && IsMp3(listing[1..][i])
            && k == TranscriptPath(listing[1..][i])
          ensures TranscriptOfListed(k, listing)
        {
          assert listing[1..][i] == listing[i + 1];
        }
      }
      assert IsMp3(listing[0]) ==> TranscriptOfListed(TranscriptPath(listing[0]), listing);
      r
  }

  /** Re-running over a directory where every listed `.mp3` file has its transcript makes no
      call, sleeps not at all and writes nothing. */
  lemma {:induction false} NoCallsWhenAllTranscribed(st: Run, listing: seq<string>,
      next: (string, nat) -> CallOutcome, maxRetries: int)
    requires forall i :: 0 <= i < |listing| && IsMp3(listing[i]) ==>
               TranscriptPath(listing[i]) in st.present
    ensures TranscribeAll(st, listing, next, maxRetries) == st
    decreases |listing|
  {
    if listing != [] {
      assert TranscribeFile(st, listing[0], next, maxRetries) == st;
      forall i | 0 <= i < |listing[1..]| && IsMp3(listing[1..][i])
        ensures TranscriptPath(listing[1..][i]) in st.present
      {
        assert listing[1..][i] == listing[i + 1];
      }
      NoCallsWhenAllTranscribed(st, listing[1..], next, maxRetries);
    }
  }

  /** With `max_retries <= 0` no file gets a call and nothing is written. */
  lemma {:induction false} NoCallsWithoutRetries(st: Run, listing: seq<string>,
      next: (string, nat) -> CallOutcome, maxRetries: int)
    requires maxRetries <= 0
    ensures TranscribeAll(st, listing, next, maxRetries) == st
    decreases |listing|
  {
    if listing != [] {
      var name := listing[0];
      if IsMp3(name) && TranscriptPath(name) !in st.present {
        var a := RetryLoop(OutcomesFor(next, name), 0, maxRetries);
        assert a == Attempts(0, 0, Exhausted);
        assert LoopText(a).None?;
      }
      assert TranscribeFile(st, name, next, maxRetries) == st;
      NoCallsWithoutRetries(st, listing[1..], next, maxRetries);
    }
  }

  /** Each listed file costs at most `max_retries` calls and as many sleeps. */
  lemma {:induction false} CallsBounded(st: Run, listing: seq<string>,
      next: (string, nat) -> CallOutcome, maxRetries: int)
    ensures var r := TranscribeAll(st, listing, next, maxRetries);
              && r.calls - st.calls <= |listing| * Max0(maxRetries)
              && r.sleeps - st.sleeps <= |listing| * Max0(maxRetries)
    decreases |listing|
  {
    if listing != [] {
      var st' := TranscribeFile(st, listing[0], next, maxRetries);
      CallsBounded(st', listing[1..], next, maxRetries);
      assert |listing| * Max0(maxRetries) == (|listing| - 1) * Max0(maxRetries) + Max0(maxRetries);
    }
  }

  /** Whatever the run writes is also present afterwards, so a second run skips it. */
  lemma {:induction false} WrittenArePresent(st: Run, listing: seq<string>,
      next: (string, nat) -> CallOutcome, maxRetries: int)
    requires st.written.Keys <= st.present
    ensures var r := TranscribeAll(st, listing, next, maxRetries);
              r.written.Keys <= r.present
    decreases |listing|
  {
    if listing != [] {
      var st' := TranscribeFile(st, listing[0], next, maxRetries);
      WrittenArePresent(st', listing[1..], next, maxRetries);
    }
  }

  /** The exchange behind one call: a response, or a failure before any (no connection, a
      timeout). */
  datatype Exchange = Answered(response: Response) | Unanswered

  /** A call as the script is written: `requests.post` raises only when no response comes,
      `response.json()` raises for a 200 response whose body is not JSON, and nothing calls
      `raise_for_status`, so every other answered call returns normally, whatever its status. */
  function OutcomeAsWritten(e: Exchange): (o: CallOutcome)
    ensures !o.HttpError?
    ensures o.Returned? <==> e.Answered? && !(e.response.status == 200 && e.response.body.NotJson?)
    ensures o.Returned? ==> o.response == e.response
  {
    match e
    case Unanswered => OtherError
    case Answered(response) =>
      if response.status == 200 && response.body.NotJson? then OtherError else Returned(response)
  }

  /** The outcomes of a sequence of exchanges, each classified by `classify`. */
  function Through(classify: Exchange -> CallOutcome,
      exchanges: nat -> Exchange): nat -> CallOutcome
  {
    (k: nat) => classify(exchanges(k))
  }

  /** As written, the 503 branch of the loop is never reached: every file gets at most one
      call and no sleep. */
  lemma AsWrittenNeverRetries(exchanges: nat -> Exchange, maxRetries: int)
    ensures var a := RetryLoop(Through(OutcomeAsWritten, exchanges), 0, maxRetries);
              a.calls <= 1 && a.sleeps == 0
  {
    var next := Through(OutcomeAsWritten, exchanges);
    assert !Retryable(next(0));
  }

  /** A 503 response, as written: one call, no sleep, and the loop breaks without writing,
      however many retries are allowed. */
  lemma AsWrittenGivesUpOn503(exchanges: nat -> Exchange, maxRetries: int)
    requires exchanges(0).Answered? && exchanges(0).response.status == 503
    requires maxRetries >= 1
    ensures var a := RetryLoop(Through(OutcomeAsWritten, exchanges), 0, maxRetries);
              && a == Attempts(1, 0, Broke(Returned(exchanges(0).response)))
              && LoopText(a).None?
  {
    var next := Through(OutcomeAsWritten, exchanges);
    assert next(0) == Returned(exchanges(0).response);
  }

  /** The evidently intended call: `response.raise_for_status()` right after the post, so a
      status from 400 to 599 raises `HTTPError` carrying that status. */
  function OutcomeRaising(e: Exchange): (o: CallOutcome)
    ensures o.HttpError? <==> e.Answered? && 400 <= e.response.status < 600
    ensures o.HttpError? ==> o.status == e.response.status
    ensures o.Returned? <==>
              && e.Answered? && !(400 <= e.response.status < 600)
              && !(e.response.status == 200 && e.response.body.NotJson?)
    ensures o.Returned? ==> o.response == e.response
  {
    match e
    case Unanswered => OtherError
    case Answered(response) =>
      if 400 <= response.status < 600 then HttpError(response.status)
      else if response.status == 200 && response.body.NotJson? then OtherError
      else Returned(response)
  }

  /** With `raise_for_status`, each 503 response is followed by a sleep and another call while
      retries remain: the loop stops at the first answer other than 503, or after
      `max_retries` calls. */
  lemma RaisingRetries503(exchanges: nat -> Exchange, maxRetries: int)
    ensures var a := RetryLoop(Through(OutcomeRaising, exchanges), 0, maxRetries);
              && (forall k :: 0 <= k < a.sleeps ==> Unavailable(exchanges(k)))
              && (a.end.Broke? ==> !Unavailable(exchanges(a.sleeps)))
              && (a.end.Exhausted? ==> a.calls == Max0(maxRetries))
  {
    ThroughApplies(OutcomeRaising, exchanges);
    RaisingLoop(Through(OutcomeRaising, exchanges), exchanges, maxRetries);
  }

  lemma ThroughApplies(classify: Exchange -> CallOutcome, exchanges: nat -> Exchange)
    ensures forall k: nat :: Through(classify, exchanges)(k) == classify(exchanges(k))
  {
  }

  /** `RaisingRetries503` for any outcome function that classifies with `raise_for_status`. */
  lemma RaisingLoop(next: nat -> CallOutcome, exchanges: nat -> Exchange, maxRetries: int)
    requires forall k: nat :: next(k) == OutcomeRaising(exchanges(k))
    ensures var a := RetryLoop(next, 0, maxRetries);
              && (forall k :: 0 <= k < a.sleeps ==> Unavailable(exchanges(k)))
              && (a.end.Broke? ==> !Unavailable(exchanges(a.sleeps)))
              && (a.end.Exhausted? ==> a.calls == Max0(maxRetries))
  {
    RetryLoopFromStart(next, maxRetries);
    SleptOnlyAfter503(next, exchanges, maxRetries);
    BrokeOnOther(next, exchanges, maxRetries);
  }

  lemma SleptOnlyAfter503(next: nat -> CallOutcome, exchanges: nat -> Exchange, maxRetries: int)
    requires forall k: nat :: next(k) == OutcomeRaising(exchanges(k))
    ensures var a := RetryLoop(next, 0, maxRetries);
              forall k :: 0 <= k < a.sleeps ==> Unavailable(exchanges(k))
  {
    var a := RetryLoop(next, 0, maxRetries);
    forall k | 0 <= k < a.sleeps ensures Unavailable(exchanges(k)) {
      assert Retryable(next(k));
    }
  }

  lemma BrokeOnOther(next: nat -> CallOutcome, exchanges: nat -> Exchange, maxRetries: int)
    requires forall k: nat :: next(k) == OutcomeRaising(exchanges(k))
    ensures var a := RetryLoop(next, 0, maxRetries);
              a.end.Broke? ==> !Unavailable(exchanges(a.sleeps))
  {
    var a := RetryLoop(next, 0, maxRetries);
    if a.end.Broke? {
      assert !Retryable(next(a.sleeps));
    }
  }

  /** A 503 response. */
  predicate Unavailable(e: Exchange)
  {
    e.Answered? && e.response.status == 503
  }

  /** With `raise_for_status`, a 503 followed by a 200 carrying text gives two calls, one
      sleep, and that text written. */
  lemma RaisingRecoversAfter503(exchanges: nat -> Exchange, text: string, maxRetries: int)
    requires exchanges(0).Answered? && exchanges(0).response.status == 503
    requires exchanges(1) == Answered(Response(200, Json(Some(text)))) && text != []
    requires maxRetries >= 2
    ensures var a := RetryLoop(Through(OutcomeRaising, exchanges), 0, maxRetries);
              && a == Attempts(2, 1, Broke(Returned(Response(200, Json(Some(text))))))
              && LoopText(a) == Some(text)
  {
    var next := Through(OutcomeRaising, exchanges);
    assert next(0) == HttpError(503);
    assert next(1) == Returned(Response(200, Json(Some(text))));
    assert RetryLoop(next, 1, maxRetries) == Attempts(1, 0, Broke(next(1)));
  }
}

=== FILE: wrappers.dfy ===
/** The optional value used wherever the script works with something that may be absent:
    a missing `text` field, an unset `save_path`, a file that is not converted. */
module Wrappers {

  datatype Option<+T> = None | Some(value: T)
}
